=== FILE: README.md ===
# backplane-cli configuration core, modelled in Dafny

This project models how the backplane command-line client works out its
configuration for one command invocation. It also models two small pieces
beside that: the build version the client reports, and the shell completion
of session aliases.

- **Configuration path** (`Config.GetConfigFilePath`, `Config.GetConfigDirectory`):
  `BACKPLANE_CONFIG` when it is set, even to the empty string. Otherwise the
  file is `.config/backplane/config.json` under the home directory.
- **Loading** (`Config.GetBackplaneConfiguration`): the settings are layered.
  - Highest: `HTTPS_PROXY`, bound to the `proxy-url` key.
  - Then the JSON configuration file.
  - Lowest: the built-in defaults, `prod-env-name` = `production`,
    `jira-base-url` = `https://issues.redhat.com`, and the Jira table for
    access requests with projects SDAINT and OHSS.
- **Backplane URL**: `BACKPLANE_URL` when set, else the active OCM
  environment's URL.
- **Proxy** (`ProxySelection.GetFirstWorkingProxyURL`): the candidates are
  probed in order, and the first that parses and answers 200 on
  `<url>/healthz` wins. When none passes, the first candidate is kept.
- **Non-fatal conditions**: a successful load returns them as a sequence of
  `Warning`s, in the order the client logs them.
- **Fatal conditions**: returned as a `ConfigError`.

The load is an imperative method, made of phase methods that follow the
source's steps. It is proved equal to the specification function
`Config.Load`. Lemmas about `Load` then state what a load guarantees. The
proxy scan and the completion loop are methods with loop invariants, proved
against recursive specification functions.

The outside world comes in as parameters:
- the process environment, as a map;
- the home directory, or None when it cannot be determined;
- the files present;
- the OCM registry's answer;
- the proxy health probe and the URI parse, as functions;
- the directory listing, as a function.

Two behaviours of the client are easy to misread, and the model follows the
code in both:
- A configuration without any proxy setting is only logged. The client's own
  FIXME (`pkg/cli/config/config.go:116`) says it should fail, but the load
  goes on (`pkg/cli/config/config.go:115-118`).
- The file's `url` key never supplies the backplane URL. It only produces a
  deprecation warning (`pkg/cli/config/config.go:127-129`).

Files: `wrappers.dfy` (Option, Result), `platform.dfy` (environment lookups,
`filepath.Join`/`Dir`), `info.dfy`, `proxy.dfy`, `config.dfy`, `session.dfy`.

## Model

| member | source | states |
|---|---|---|
| Info.TrimLeftV | pkg/info/info.go:83 | the result is a suffix of the input, everything cut off is a 'v', and the result does not start with 'v' |
| Info.VTrimmedUnique | pkg/info/info.go:83 | those three facts determine the trimmed version uniquely |
| Info.GetBuildVersion | pkg/info/info.go:74-87 | a stamped version is returned verbatim whatever the build info says; else the module version with its leading 'v's trimmed; else "unknown" |
| Info.BuildVersionTrimsEveryLeadingV | pkg/info/info.go:81-84 | the cutset trim removes any number of leading 'v's (so "vv1.2" gives "1.2"), not just one |
| Info.SprintfSubstitutes | pkg/info/info.go:63 | formatting a template that has one %s verb, and no '%' before it, puts the argument exactly where the verb was |
| Info.UpstreamREADMEBlobPrefixHasNoVerb | pkg/info/info.go:32 | the README template has no formatting verb before its %s |
| Info.UpstreamREADMETagged | pkg/info/info.go:63 | the link is the blob prefix ".../backplane-cli/-/blob/", then the version, then "/README.md" |
| Platform.LastSeparator | pkg/cli/config/config.go:241 | the index found holds a separator and none follows it; None exactly when there is no separator |
| Platform.Dir | pkg/cli/config/config.go:241 | "." when the path has no separator; "/" when the last separator is the first character; otherwise exactly the prefix before the last separator |
| Platform.LookupEnv | pkg/cli/config/config.go:76 | Some exactly when the variable is set, even to "", with its value |
| Platform.Getenv | pkg/cli/config/config.go:228 | the value LookupEnv finds, or "" when the variable is not set; a non-empty result is the set value |
| Platform.Join | pkg/cli/config/config.go:86 | the join is "" exactly when every element is empty |
| Platform.NonEmptyAppend | pkg/cli/config/config.go:86 | dropping the empty elements of a concatenation drops them from each part |
| Platform.JoinIgnoresEmpty | pkg/cli/config/config.go:86 | an empty element at any position does not change the join |
| Platform.JoinSkipsEmptyFirst | cmd/ocm-backplane/session/session.go:31 | an empty leading element never changes the join |
| Platform.JoinTwo | cmd/ocm-backplane/session/session.go:31 | two non-empty elements are joined with exactly one separator |
| Platform.JoinThree | pkg/cli/config/config.go:86 | three non-empty elements are joined with a separator between each |
| Platform.DirOfJoin | pkg/cli/config/config.go:241 | Dir undoes a join whose last element holds no separator |
| ProxySelection.FirstPassingFrom | pkg/cli/config/config.go:197-215 | the index found passes (parses and answers 200) and no earlier candidate passes; None means none passes |
| ProxySelection.SelectProxy | pkg/cli/config/config.go:190-223 | the selected proxy is a candidate, or "" for an empty list |
| ProxySelection.GetFirstWorkingProxyURL | pkg/cli/config/config.go:190-223 | the scan returns the selection against url + "/healthz" and sends probes exactly through the parseable candidates up to the winner |
| ProxySelection.FirstPassingIsFirst | pkg/cli/config/config.go:197-213 | a passing candidate with no passing candidate before it is the one found |
| ProxySelection.SelectProxyFirstHealthy | pkg/cli/config/config.go:211-213 | the first healthy candidate wins, and no candidate after it is probed |
| ProxySelection.SelectProxyFallback | pkg/cli/config/config.go:217-220 | when nothing passes, the first candidate is kept unchanged even if it does not parse, and every parseable candidate was probed |
| ProxySelection.SelectProxyEmpty | pkg/cli/config/config.go:222 | no candidates: "" and no probe |
| ProxySelection.ParseableMembers | pkg/cli/config/config.go:198-202 | the parse filter keeps exactly the candidates that parse |
| ProxySelection.ProbedAreParseableCandidates | pkg/cli/config/config.go:198-206 | a candidate that does not parse is never probed, and every probe goes through a listed candidate |
| ProxySelection.SelectProxyIgnoresLaterProbes | pkg/cli/config/config.go:211-213 | the selection depends only on the probes up to the winner |
| Config.JiraConfigForAccessRequestsDefaultValue | pkg/cli/config/config.go:54-71 | the built-in Jira table uses SDAINT by default and OHSS for production, and names transitions for both |
| Config.FindPrecedence | pkg/cli/config/config.go:121-127 | a bound variable set to a non-empty value wins over the file, the file wins over the defaults, and the layers below the winning one do not change the value; nothing is found exactly when no layer has the key |
| Config.GetString | pkg/cli/config/config.go:150-168 | the string the key resolves to; "" when it resolves to nothing or to a non-string; a non-empty result always comes from a string value |
| Config.GetStringSlice | pkg/cli/config/config.go:144 | nil exactly when the key resolves to nothing, to a table or to an empty array; a string gives one candidate; a non-empty list is kept; a present list is never empty |
| Config.UnmarshalJira | pkg/cli/config/config.go:171 | a decode error exactly when the key resolves to a value that is not a table; a table decodes to itself; no value leaves the zero record |
| Config.ReadConfigFile | pkg/cli/config/config.go:104-113 | no file at the path gives no entries; a parsed file gives its entries; an error exactly when a file exists at the path and cannot be read, naming that path |
| Config.GetConfigFilePath | pkg/cli/config/config.go:74-89 | BACKPLANE_CONFIG is used verbatim when set, even to ""; a missing home directory is an error; else home + "/.config/backplane/config.json", or the relative ".config/backplane/config.json" for an empty home |
| Config.JoinThreeOrEmptyHome | pkg/cli/config/config.go:86 | joining a non-empty home with the default path and file name gives home/.config/backplane/config.json; an empty home gives .config/backplane/config.json |
| Config.GetConfigDirectory | pkg/cli/config/config.go:236-244 | a path error is passed on; the directory of BACKPLANE_CONFIG; by default, for a non-empty home not ending in '/', home + "/.config/backplane" |
| Config.DefaultConfigDirectory | pkg/cli/config/config.go:236-244 | the directory of the default file path is home/.config/backplane |
| Config.ValidateConfig | pkg/cli/config/config.go:225-233 | over the unbound layers, an error exactly when the file has no string or non-empty list proxy-url and HTTPS_PROXY is empty; the only error is ProxyNotConfigured |
| Config.GetBackplaneURL | pkg/cli/config/config.go:247-259 | succeeds exactly when the registry answers with an endpoint, returning that URL; a registry error and a missing endpoint are the two failures |
| Config.GetBackplaneEnv | pkg/cli/config/config.go:262-269 | Some exactly when the variable is set, even to "", with its value |
| Config.MissingTransitionWarningsMembers | pkg/cli/config/config.go:176-180 | a project is reported exactly when it is listed and has no transition names |
| Config.CheckJiraTransitions | pkg/cli/config/config.go:176-180 | the loop reports the default project, then the production project, for each that has no transition names |
| Config.LoadWarningsMembers | pkg/cli/config/config.go:115-181 | reported iff: no proxy setting and empty HTTPS_PROXY; a url key in the file; BACKPLANE_URL set; an empty pd-key; a Jira table that does not decode |
| Config.LoadWarningsJiraProjects | pkg/cli/config/config.go:171-181 | a project is reported exactly when it is the decoded default or production project and has no transition names |
| Config.BoundLayersReadStrings | pkg/cli/config/config.go:127-168 | url, session-dir, assume-initial-arn, pd-key and the Jira token read as the file's string, or "" |
| Config.BoundLayersReadDefaulted | pkg/cli/config/config.go:144-171 | prod-env-name and jira-base-url fall back to their defaults; the proxy list is HTTPS_PROXY or the file's proxy-url; the Jira table is the file's or the built-in one |
| Config.SetDefaults | pkg/cli/config/config.go:93-95 | the three defaults registered one after another form the default layer |
| Config.ReadInConfig | pkg/cli/config/config.go:97-113 | a path error is passed on unchanged; no file at the path gives no entries; an unreadable file is an error naming the path; a parsed file gives its entries |
| Config.ResolveBackplaneURL | pkg/cli/config/config.go:131-141 | when BACKPLANE_URL is set: its value verbatim and exactly one deprecation report; otherwise the registry's URL or its error, and no report |
| Config.ApplyJira | pkg/cli/config/config.go:170-181 | a decode error leaves the zero table and exactly one decode report; a decoded table is kept, and a project is reported exactly when it is its default or production project and has no transition names |
| Config.FillSettings | pkg/cli/config/config.go:143-183 | the selected proxy and the remaining fields read through the bound layers, and the PagerDuty and Jira reports |
| Config.GetBackplaneConfiguration | pkg/cli/config/config.go:92-184 | the load, step by step, gives exactly `Load`: the same configuration, the same reports in the same order, the same error |
| Config.LoadFailsOnlyOnFatalErrors | pkg/cli/config/config.go:92-141 | the load fails exactly on a path error, an unreadable file, or a URL that neither BACKPLANE_URL nor the registry gives, and returns that error; a missing proxy setting and Jira problems never fail it |
| Config.LoadURL | pkg/cli/config/config.go:127-141 | the URL is BACKPLANE_URL verbatim when set, else the registry's; the file's url key never reaches it |
| Config.LoadProxy | pkg/cli/config/config.go:120-148 | the proxy is set exactly when the selection over HTTPS_PROXY, or else the file's proxy-url, probed against the resolved URL, returns a non-empty candidate |
| Config.LoadSettings | pkg/cli/config/config.go:150-171 | every other field is the file's value; absent keys fall back to "production", "https://issues.redhat.com" and the built-in Jira table, or to "" |
| Config.LoadSettlesFileEntries | pkg/cli/config/config.go:92-184 | a successful load is the settlement of the file's entries at the resolved URL |
| Config.EarlyWarningsFromEntries | pkg/cli/config/config.go:115-134 | the reports before the URL step depend only on the file's entries and the environment |
| Config.LateWarningsFromEntries | pkg/cli/config/config.go:153-181 | the PagerDuty and Jira reports depend only on the file's entries |
| Config.SettleReports | pkg/cli/config/config.go:115-181 | the reports of settling are those the entries call for, in order |
| Config.LoadReports | pkg/cli/config/config.go:115-181 | the reports of a successful load: proxy, url key, BACKPLANE_URL, PagerDuty, then the Jira decoding or transitions |
| Config.LoadWithoutFileUsesDefaults | pkg/cli/config/config.go:93-95 | without a configuration file: "production", "https://issues.redhat.com", the built-in Jira table, and empty optional fields |
| Config.NoFileWarnings | pkg/cli/config/config.go:153-181 | with no entries, the missing PagerDuty key is reported and neither the url key nor the built-in Jira table raises a report |
| Config.LoadWithoutFileReports | pkg/cli/config/config.go:153-181 | without a configuration file: the missing PagerDuty key is reported, and the built-in Jira table raises no report |
| SessionCompletion.CompleteSessionAlias | cmd/ocm-backplane/session/session.go:29-42 | the directive is always NoFileComp; a read error gives no names; otherwise the offered names of the listing |
| SessionCompletion.OfferedNamesKeepListingOrder | cmd/ocm-backplane/session/session.go:35-39 | each returned name is that of an offered directory entry, and the names keep the listing's order |
| SessionCompletion.OfferedNamesComplete | cmd/ocm-backplane/session/session.go:35-38 | every directory entry whose name starts with the typed text is returned |
| SessionCompletion.OfferedNamesSound | cmd/ocm-backplane/session/session.go:35-38 | a returned name belongs to a directory entry that starts with the typed text; files are never offered |
| SessionCompletion.EmptyPrefixOffersEveryDirectory | cmd/ocm-backplane/session/session.go:36 | with nothing typed, every subdirectory is offered, in order |
| SessionCompletion.SessionDirectoryUnderHome | cmd/ocm-backplane/session/session.go:31 | the scanned directory is $HOME/backplane, or the relative "backplane" when HOME is empty |

## Left out

- The HTTP health probe is the `probe` parameter. The client, its transport, the 5-second timeout and request construction are not modelled. `url.ParseRequestURI` is the `parses` parameter.
- `CheckAPIConnection` and `testHTTPRequestToBackplaneAPI` are left out. They are network I/O and replace the process-wide HTTP transport.
- The OCM registry lookup is the `registry` parameter. `os.UserHomeDir` is `home`, `os.Stat` with the file read is `files`, and `os.ReadDir` is `readDir`.
- Viper's global state is left out. Each load starts from fresh layers. Defaults, the bound `HTTPS_PROXY` and the file do not carry over between calls.
- Viper's `AutomaticEnv` mapping is left out: the variable named after an upper-cased key is not consulted. Key case-insensitivity is left out too.
- `GetStringSlice` casting is simplified. A string `proxy-url` becomes a single candidate, without whitespace splitting. An empty JSON array reads as the nil slice, as the client's cast does: `"proxy-url": []` fails validation and scans no candidates.
- Reports logged before a fatal error are not returned: a failed load gives only its `ConfigError`. When the URL step fails (`pkg/cli/config/config.go:138-140`), the client has already logged the missing-proxy and `url`-key warnings, each where its condition held. A path error or an unreadable file fails before either is logged.
- `UnmarshalKey` decoding is abstracted. A file's Jira table arrives already decoded. Any other value is a decode error.
- Config.ApplyJira: on a decode error the model keeps the zero table. The client may keep partially decoded fields.
- The `BindEnv` error path is left out. It fails only when called without a key, which never happens here.
- Log text and levels are left out. A warning is a `Warning` value. `fmt.Printf` output on the BACKPLANE_URL warning is not modelled.
- `filepath.Join` and `filepath.Dir` work on clean paths with '/' separators. `..` and repeated separators are not cleaned.
- Info.Sprintf models `fmt.Sprintf` only for a template with one `%s` verb, and carries no contract of its own; `SprintfSubstitutes` states what it does there. A template without a verb comes back unchanged, where `fmt.Sprintf` would append `%!(EXTRA string=...)`.
- The template constant is built from its parts. Its value is the same as the client's single literal.
- The version, upgrade and test-job commands are not part of this model, and nor is the session command's flag wiring. They are output, network and argument glue.

=== FILE: config.dfy ===
/** How one command invocation resolves its backplane configuration:
    built-in defaults, the JSON configuration file and environment overrides
    are layered, the backplane URL is taken from the environment or from the
    OCM environment registry, an egress proxy is selected by health probes,
    and the Jira settings for access requests are checked for consistency. */
module Config {
  import opened Wrappers
  import opened Platform
  import Info
  import opened ProxySelection

  datatype JiraTransitionsNamesForAccessRequests =
    JiraTransitionsNamesForAccessRequests(onCreation: string, onApproval: string, onError: string)

  datatype AccessRequestsJiraConfiguration = AccessRequestsJiraConfiguration(
    defaultProject: string,
    defaultIssueType: string,
    prodProject: string,
    prodIssueType: string,
    projectToTransitionsNames: map<string, JiraTransitionsNamesForAccessRequests>)

  /** The effective configuration handed to every subcommand. */
  datatype BackplaneConfiguration = BackplaneConfiguration(
    url: string,
    proxyURL: Option<string>,
    sessionDirectory: string,
    assumeInitialArn: string,
    prodEnvName: string,
    pagerDutyAPIKey: string,
    jiraBaseURL: string,
    jiraToken: string,
    jiraConfigForAccessRequests: AccessRequestsJiraConfiguration)

  const EmptyJiraConfiguration := AccessRequestsJiraConfiguration("", "", "", "", map[])
  const EmptyConfiguration := BackplaneConfiguration("", None, "", "", "", "", "", "", EmptyJiraConfiguration)

  // Keys of the configuration file
  const URLKey := "url"
  const ProxyURLKey := "proxy-url"
  const SessionDirKey := "session-dir"
  const AssumeInitialArnKey := "assume-initial-arn"
  const PagerDutyKey := "pd-key"
  const ProdEnvNameKey := "prod-env-name"
  const JiraBaseURLKey := "jira-base-url"
  const JiraTokenViperKey := "jira-token"
  const JiraConfigForAccessRequestsKey := "jira-config-for-access-requests"

  const ProdEnvNameDefaultValue := "production"
  const JiraBaseURLDefaultValue := "https://issues.redhat.com"

  /** Whether the Jira settings name transitions for `project`. */
  predicate HasTransitionsFor(c: AccessRequestsJiraConfiguration, project: string)
  {
    project in c.projectToTransitionsNames
  }

  /** The built-in Jira settings: SDAINT stories by default, OHSS incidents
      for production, and transition names for both, so the defaults are
      consistent. */
  function JiraConfigForAccessRequestsDefaultValue(): (c: AccessRequestsJiraConfiguration)
    ensures c.defaultProject == "SDAINT" && c.prodProject == "OHSS"
    ensures HasTransitionsFor(c, c.defaultProject) && HasTransitionsFor(c, c.prodProject)
  {
    AccessRequestsJiraConfiguration(
      "SDAINT", "Story", "OHSS", "Incident",
      map[
        "SDAINT" := JiraTransitionsNamesForAccessRequests("In Progress", "In Progress", "Closed"),
        "OHSS" := JiraTransitionsNamesForAccessRequests("Pending Customer", "New", "Cancelled")])
  }

  // ---------------------------------------------------------------------
  // Layered settings

  /** A setting's value: a string, an array of strings, or the decoded Jira
      access-request table. */
  datatype Value = Text(text: string) | TextList(items: seq<string>) | Table(jira: AccessRequestsJiraConfiguration)

  /** The settings layers, highest precedence first when read: environment
      variables bound to keys, the configuration file, the defaults. */
  datatype Layers = Layers(defaults: map<string, Value>, file: map<string, Value>, bindings: map<string, string>)

  /** Whether `key` is bound to an environment variable that is set to a
      non-empty value, which then overrides the file and the defaults. */
  predicate Overridden(layers: Layers, env: Environ, key: string)
  {
    key in layers.bindings && Getenv(env, layers.bindings[key]) != ""
  }

  /** The value `key` resolves to. A bound environment variable counts only
      when it is set to a non-empty value. */
  function Find(layers: Layers, env: Environ, key: string): Option<Value>
  {
    if Overridden(layers, env, key) then Some(Text(Getenv(env, layers.bindings[key])))
    else if key in layers.file then Some(layers.file[key])
    else if key in layers.defaults then Some(layers.defaults[key])
    else None
  }

  /** Precedence of the layers: an overriding variable wins over the file and
      the defaults, the file wins over the defaults, and whatever a layer
      below the winning one holds does not change the value. */
  lemma FindPrecedence(layers: Layers, env: Environ, key: string,
                       file': map<string, Value>, defaults': map<string, Value>)
    ensures Overridden(layers, env, key) ==>
      && Find(layers, env, key) == Some(Text(env[layers.bindings[key]]))
      && Find(Layers(defaults', file', layers.bindings), env, key) == Find(layers, env, key)
    ensures !Overridden(layers, env, key) && key in layers.file ==>
      && Find(layers, env, key) == Some(layers.file[key])
      && Find(Layers(defaults', layers.file, layers.bindings), env, key) == Find(layers, env, key)
    ensures !Overridden(layers, env, key) && key !in layers.file ==>
      Find(layers, env, key) == (if key in layers.defaults then Some(layers.defaults[key]) else None)
    ensures Find(layers, env, key).None? <==>
      !Overridden(layers, env, key) && key !in layers.file && key !in layers.defaults
  {
  }

  /** A string setting; "" when absent or not a string. */
  function GetString(layers: Layers, env: Environ, key: string): (r: string)
    ensures Find(layers, env, key).Some? && Find(layers, env, key).value.Text? ==>
      r == Find(layers, env, key).value.text
    ensures r != "" ==> Find(layers, env, key) == Some(Text(r))
  {
    match Find(layers, env, key)
    case Some(Text(s)) => s
    case _ => ""
  }

  /** A string-list setting; None plays the part of the nil slice, which is
      also what an empty array reads as. */
  function GetStringSlice(layers: Layers, env: Environ, key: string): (r: Option<seq<string>>)
    ensures r.Some? ==> r.value != []
    ensures r.None? <==> match Find(layers, env, key)
      case Some(Text(_)) => false
      case Some(TextList(xs)) => xs == []
      case _ => true
    ensures Find(layers, env, key).Some? && Find(layers, env, key).value.Text? ==>
      r == Some([Find(layers, env, key).value.text])
    ensures Find(layers, env, key).Some? && Find(layers, env, key).value.TextList? && r.Some? ==>
      r.value == Find(layers, env, key).value.items
  {
    match Find(layers, env, key)
    case Some(Text(s)) => Some([s])
    case Some(TextList(xs)) => if xs == [] then None else Some(xs)
    case _ => None
  }

  /** Decoding the Jira table setting into the zero-valued record: None when
      the value is not a table. */
  function UnmarshalJira(layers: Layers, env: Environ, key: string): (r: Option<AccessRequestsJiraConfiguration>)
    ensures r.None? <==> Find(layers, env, key).Some? && !Find(layers, env, key).value.Table?
    ensures Find(layers, env, key).None? ==> r == Some(EmptyJiraConfiguration)
    ensures Find(layers, env, key).Some? && Find(layers, env, key).value.Table? ==>
      r == Some(Find(layers, env, key).value.jira)
  {
    match Find(layers, env, key)
    case Some(Table(c)) => Some(c)
    case Some(_) => None
    case None => Some(EmptyJiraConfiguration)
  }

  // ---------------------------------------------------------------------
  // Inputs, errors and warnings

  datatype ConfigError =
    | HomeDirectoryUnavailable
    | ConfigFileUnreadable(path: string)
    | RegistryUnavailable(reason: string)
    | EndpointUnavailable(environment: string)
    | ProxyNotConfigured

  /** The conditions that are reported and let the load go on. NoPagerDutyKey
      is reported at info level, the others as warnings. */
  datatype Warning =
    | MissingProxy
    | DeprecatedURLKey
    | DeprecatedURLEnv
    | NoPagerDutyKey
    | JiraUnmarshalFailed
    | JiraNoTransitions(project: string)

  /** A file that exists at the configuration path: it cannot be read or is
      not valid JSON, or it holds these entries. A path that is not a key of
      the file map has no file (os.Stat fails). */
  datatype ConfigFile = Unreadable | Json(entries: map<string, Value>)

  /** The active OCM environment as the registry reports it. */
  datatype OcmEnvironment = OcmEnvironment(name: string, backplaneURL: Option<string>)

  datatype Loaded = Loaded(config: BackplaneConfiguration, warnings: seq<Warning>)

  // ---------------------------------------------------------------------
  // Path resolution

  /** The configuration file path: BACKPLANE_CONFIG verbatim when it is set,
      even to ""; otherwise .config/backplane/config.json under the home
      directory (`home` is os.UserHomeDir, None when that fails). */
  function GetConfigFilePath(env: Environ, home: Option<string>): (r: Result<string, ConfigError>)
    ensures Info.BackplaneConfigPathEnvName in env ==> r == Success(env[Info.BackplaneConfigPathEnvName])
    ensures Info.BackplaneConfigPathEnvName !in env && home.None? ==> r == Failure(HomeDirectoryUnavailable)
    ensures Info.BackplaneConfigPathEnvName !in env && home.Some? && home.value != "" ==>
      r == Success(home.value + "/" + Info.BackplaneConfigDefaultFilePath + "/" + Info.BackplaneConfigDefaultFileName)
    ensures Info.BackplaneConfigPathEnvName !in env && home == Some("") ==>
      r == Success(Info.BackplaneConfigDefaultFilePath + "/" + Info.BackplaneConfigDefaultFileName)
  {
    match LookupEnv(env, Info.BackplaneConfigPathEnvName)
    case Some(path) => Success(path)
    case None =>
      match home
      case None => Failure(HomeDirectoryUnavailable)
      case Some(userHomeDir) =>
        JoinThreeOrEmptyHome(userHomeDir);
        Success(Join([userHomeDir, Info.BackplaneConfigDefaultFilePath, Info.BackplaneConfigDefaultFileName]))
  }

  /** The default path under a home directory; an empty home leaves the
      path relative, as filepath.Join drops the empty element. */
  lemma JoinThreeOrEmptyHome(home: string)
    ensures home != "" ==>
      Join([home, Info.BackplaneConfigDefaultFilePath, Info.BackplaneConfigDefaultFileName])
      == home + "/" + Info.BackplaneConfigDefaultFilePath + "/" + Info.BackplaneConfigDefaultFileName
    ensures home == "" ==>
      Join([home, Info.BackplaneConfigDefaultFilePath, Info.BackplaneConfigDefaultFileName])
      == Info.BackplaneConfigDefaultFilePath + "/" + Info.BackplaneConfigDefaultFileName
  {
    if home != "" {
      JoinThree(home, Info.BackplaneConfigDefaultFilePath, Info.BackplaneConfigDefaultFileName);
    } else {
      assert [home, Info.BackplaneConfigDefaultFilePath, Info.BackplaneConfigDefaultFileName]
          == [""] + [Info.BackplaneConfigDefaultFilePath, Info.BackplaneConfigDefaultFileName];
      JoinSkipsEmptyFirst([Info.BackplaneConfigDefaultFilePath, Info.BackplaneConfigDefaultFileName]);
      JoinTwo(Info.BackplaneConfigDefaultFilePath, Info.BackplaneConfigDefaultFileName);
    }
  }

  /** The directory that holds the configuration file; a path error is
      passed on unchanged. */
  function GetConfigDirectory(env: Environ, home: Option<string>): (r: Result<string, ConfigError>)
    ensures GetConfigFilePath(env, home).Failure? ==> r == Failure(GetConfigFilePath(env, home).error)
    ensures Info.BackplaneConfigPathEnvName in env ==> r == Success(Dir(env[Info.BackplaneConfigPathEnvName]))
    ensures Info.BackplaneConfigPathEnvName !in env && home.Some? && home.value != "" &&
            home.value[|home.value| - 1] != Separator ==>
      r == Success(home.value + "/" + Info.BackplaneConfigDefaultFilePath)
  {
    match GetConfigFilePath(env, home)
    case Failure(e) => Failure(e)
    case Success(path) =>
      DefaultConfigDirectory(env, home);
      Success(Dir(path))
  }

  lemma DefaultConfigDirectory(env: Environ, home: Option<string>)
    ensures Info.BackplaneConfigPathEnvName !in env && home.Some? && home.value != "" &&
            home.value[|home.value| - 1] != Separator ==>
      Dir(GetConfigFilePath(env, home).value) == home.value + "/" + Info.BackplaneConfigDefaultFilePath
  {
    if Info.BackplaneConfigPathEnvName !in env && home.Some? && home.value != "" &&
       home.value[|home.value| - 1] != Separator {
      var dir := home.value + "/" + Info.BackplaneConfigDefaultFilePath;
      assert dir[|dir| - 1] == Info.BackplaneConfigDefaultFilePath[|Info.BackplaneConfigDefaultFilePath| - 1];
      assert Separator !in Info.BackplaneConfigDefaultFileName;
      DirOfJoin(dir, Info.BackplaneConfigDefaultFileName);
    }
  }

  // ---------------------------------------------------------------------
  // Validation and URL resolution

  /** Whether a file's entries give proxy-url a string or a non-empty list
      value; an empty array reads as the nil slice. */
  predicate ProxyListed(entries: map<string, Value>)
  {
    ProxyURLKey in entries &&
    (entries[ProxyURLKey].Text? || (entries[ProxyURLKey].TextList? && entries[ProxyURLKey].items != []))
  }

  /** validateConfig: an error exactly when proxy-url reads as nil and
      HTTPS_PROXY is empty. */
  function ValidateConfig(layers: Layers, env: Environ): (r: Option<ConfigError>)
    ensures r.Some? ==> r.value == ProxyNotConfigured
    ensures layers.bindings == map[] && ProxyURLKey !in layers.defaults ==>
      (r.Some? <==> !ProxyListed(layers.file) && Getenv(env, Info.BackplaneProxyEnvName) == "")
  {
    if GetStringSlice(layers, env, ProxyURLKey).None? && Getenv(env, Info.BackplaneProxyEnvName) == "" then
      Some(ProxyNotConfigured)
    else
      None
  }

  /** The backplane URL of the active OCM environment. */
  function GetBackplaneURL(registry: Result<OcmEnvironment, string>): (r: Result<string, ConfigError>)
    ensures r.Success? <==> registry.Success? && registry.value.backplaneURL.Some?
    ensures r.Success? ==> r.value == registry.value.backplaneURL.value
    ensures registry.Failure? ==> r == Failure(RegistryUnavailable(registry.error))
    ensures registry.Success? && registry.value.backplaneURL.None? ==>
      r == Failure(EndpointUnavailable(registry.value.name))
  {
    match registry
    case Failure(e) => Failure(RegistryUnavailable(e))
    case Success(ocmEnv) =>
      match ocmEnv.backplaneURL
      case Some(url) => Success(url)
      case None => Failure(EndpointUnavailable(ocmEnv.name))
  }

  /** getBackplaneEnv: the variable's value when it is set, even to "". */
  function GetBackplaneEnv(env: Environ, key: string): (r: Option<string>)
    ensures r.Some? <==> key in env
    ensures r.Some? ==> r.value == env[key]
  {
    match LookupEnv(env, key)
    case Some(val) => Some(val)
    case None => None
  }

  // ---------------------------------------------------------------------
  // The load, stated against the file's entries

  /** The entries the load reads from the configuration file: none when the
      path cannot be resolved or no readable file is there. */
  function FileEntries(env: Environ, home: Option<string>, files: map<string, ConfigFile>): map<string, Value>
  {
    match ConfigEntries(env, home, files)
    case Failure(_) => map[]
    case Success(entries) => entries
  }

  predicate FileUnreadable(env: Environ, home: Option<string>, files: map<string, ConfigFile>)
  {
    GetConfigFilePath(env, home).Success? &&
    GetConfigFilePath(env, home).value in files &&
    files[GetConfigFilePath(env, home).value].Unreadable?
  }

  /** A string entry of the file; "" when absent or not a string. */
  function TextOf(entries: map<string, Value>, key: string): string
  {
    if key in entries && entries[key].Text? then entries[key].text else ""
  }

  /** The proxy candidates: a non-empty HTTPS_PROXY alone, else the file's
      proxy-url (a string is one candidate), else none. */
  function ProxyCandidates(env: Environ, entries: map<string, Value>): seq<string>
  {
    if Getenv(env, Info.BackplaneProxyEnvName) != "" then [Getenv(env, Info.BackplaneProxyEnvName)]
    else if ProxyURLKey in entries then
      match entries[ProxyURLKey]
      case Text(s) => [s]
      case TextList(xs) => xs
      case Table(_) => []
    else []
  }

  /** The Jira settings the load decodes: the file's table, the built-in
      table when the file has none, None when the file's value is no table. */
  function JiraSetting(entries: map<string, Value>): Option<AccessRequestsJiraConfiguration>
  {
    if JiraConfigForAccessRequestsKey !in entries then Some(JiraConfigForAccessRequestsDefaultValue())
    else if entries[JiraConfigForAccessRequestsKey].Table? then Some(entries[JiraConfigForAccessRequestsKey].jira)
    else None
  }

  /** One warning per listed project without transition names, in order. */
  function MissingTransitionWarnings(projects: seq<string>, c: AccessRequestsJiraConfiguration): seq<Warning>
  {
    if projects == [] then []
    else
      var p := projects[|projects| - 1];
      MissingTransitionWarnings(projects[..|projects| - 1], c) + (if HasTransitionsFor(c, p) then [] else [JiraNoTransitions(p)])
  }

  lemma {:induction false} MissingTransitionWarningsMembers(projects: seq<string>, c: AccessRequestsJiraConfiguration)
    ensures forall w :: w in MissingTransitionWarnings(projects, c) <==>
      w.JiraNoTransitions? && w.project in projects && !HasTransitionsFor(c, w.project)
  {
    if projects != [] {
      var init := projects[..|projects| - 1];
      MissingTransitionWarningsMembers(init, c);
      assert projects == init + [projects[|projects| - 1]];
    }
  }

  /** The Jira consistency check: a warning for the default project and
      then for the production project when it has no transition names. */
  method CheckJiraTransitions(c: AccessRequestsJiraConfiguration) returns (warnings: seq<Warning>)
    ensures warnings == MissingTransitionWarnings([c.defaultProject, c.prodProject], c)
  {
    warnings := [];
    var projects := [c.defaultProject, c.prodProject];
    for k := 0 to |projects|
      invariant warnings == MissingTransitionWarnings(projects[..k], c)
    {
      assert projects[..k + 1][..k] == projects[..k];
      if !HasTransitionsFor(c, projects[k]) {
        warnings := warnings + [JiraNoTransitions(projects[k])];
      }
    }
    assert projects[..|projects|] == projects;
  }

  /** `[w]` when `b` holds, else nothing. */
  function WarnIf(b: bool, w: Warning): seq<Warning>
  {
    if b then [w] else []
  }

  /** What the Jira step reports for the decoded settings. */
  function JiraWarnings(jira: Option<AccessRequestsJiraConfiguration>): seq<Warning>
  {
    match jira
    case None => [JiraUnmarshalFailed]
    case Some(c) => MissingTransitionWarnings([c.defaultProject, c.prodProject], c)
  }

  /** Everything a successful load reports, in the order it is reported. */
  function LoadWarnings(env: Environ, entries: map<string, Value>): seq<Warning>
  {
    WarnIf(!ProxyListed(entries) && Getenv(env, Info.BackplaneProxyEnvName) == "", MissingProxy)
    + WarnIf(TextOf(entries, URLKey) != "", DeprecatedURLKey)
    + WarnIf(Info.BackplaneURLEnvName in env, DeprecatedURLEnv)
    + WarnIf(TextOf(entries, PagerDutyKey) == "", NoPagerDutyKey)
    + JiraWarnings(JiraSetting(entries))
  }

  /** Which conditions are reported: a missing proxy setting, the deprecated
      url key or BACKPLANE_URL, a missing PagerDuty key, and a Jira table
      that does not decode. */
  lemma LoadWarningsMembers(env: Environ, entries: map<string, Value>)
    ensures var w := LoadWarnings(env, entries);
      && (MissingProxy in w <==> !ProxyListed(entries) && Getenv(env, Info.BackplaneProxyEnvName) == "")
      && (DeprecatedURLKey in w <==> TextOf(entries, URLKey) != "")
      && (DeprecatedURLEnv in w <==> Info.BackplaneURLEnvName in env)
      && (NoPagerDutyKey in w <==> TextOf(entries, PagerDutyKey) == "")
      && (JiraUnmarshalFailed in w <==> JiraSetting(entries).None?)
  {
    var a := WarnIf(!ProxyListed(entries) && Getenv(env, Info.BackplaneProxyEnvName) == "", MissingProxy);
    var b := WarnIf(TextOf(entries, URLKey) != "", DeprecatedURLKey);
    var c := WarnIf(Info.BackplaneURLEnvName in env, DeprecatedURLEnv);
    var d := WarnIf(TextOf(entries, PagerDutyKey) == "", NoPagerDutyKey);
    var e := JiraWarnings(JiraSetting(entries));
    assert LoadWarnings(env, entries) == a + b + c + d + e;
    if JiraSetting(entries).Some? {
      var jira := JiraSetting(entries).value;
      MissingTransitionWarningsMembers([jira.defaultProject, jira.prodProject], jira);
    }
  }

  /** A default or production project without transition names is reported,
      and no other project is. */
  lemma LoadWarningsJiraProjects(env: Environ, entries: map<string, Value>)
    ensures forall p :: JiraNoTransitions(p) in LoadWarnings(env, entries) <==>
      JiraSetting(entries).Some? &&
      (p == JiraSetting(entries).value.defaultProject || p == JiraSetting(entries).value.prodProject) &&
      !HasTransitionsFor(JiraSetting(entries).value, p)
  {
    match JiraSetting(entries)
    case None =>
    case Some(c) => MissingTransitionWarningsMembers([c.defaultProject, c.prodProject], c);
  }

  /** The defaults the load registers. */
  function DefaultSettings(): map<string, Value>
  {
    map[ProdEnvNameKey := Text(ProdEnvNameDefaultValue),
        JiraBaseURLKey := Text(JiraBaseURLDefaultValue),
        JiraConfigForAccessRequestsKey := Table(JiraConfigForAccessRequestsDefaultValue())]
  }

  /** With HTTPS_PROXY bound to proxy-url, the layered reads the load makes
      come down to the file's entries, the defaults and HTTPS_PROXY. */
  lemma BoundLayersReadStrings(entries: map<string, Value>, env: Environ)
    ensures var layers := BoundLayers(entries);
      && GetString(layers, env, URLKey) == TextOf(entries, URLKey)
      && GetString(layers, env, SessionDirKey) == TextOf(entries, SessionDirKey)
      && GetString(layers, env, AssumeInitialArnKey) == TextOf(entries, AssumeInitialArnKey)
      && GetString(layers, env, PagerDutyKey) == TextOf(entries, PagerDutyKey)
      && GetString(layers, env, JiraTokenViperKey) == TextOf(entries, JiraTokenViperKey)
  {
  }

  lemma BoundLayersReadDefaulted(entries: map<string, Value>, env: Environ)
    ensures var layers := BoundLayers(entries);
      && GetString(layers, env, ProdEnvNameKey) ==
           (if ProdEnvNameKey in entries then TextOf(entries, ProdEnvNameKey) else ProdEnvNameDefaultValue)
      && GetString(layers, env, JiraBaseURLKey) ==
           (if JiraBaseURLKey in entries then TextOf(entries, JiraBaseURLKey) else JiraBaseURLDefaultValue)
      && ProxySetting(env, entries) == ProxyCandidates(env, entries)
      && UnmarshalJira(layers, env, JiraConfigForAccessRequestsKey) == JiraSetting(entries)
  {
  }

  /** os.Stat and viper.ReadInConfig: no file at `path` gives no entries; a
      file that cannot be read or parsed is an error. */
  function ReadConfigFile(files: map<string, ConfigFile>, path: string): (r: Result<map<string, Value>, ConfigError>)
    ensures r.Failure? <==> path in files && files[path].Unreadable?
    ensures r.Failure? ==> r.error == ConfigFileUnreadable(path)
    ensures r.Success? && r.value != map[] ==> path in files && files[path] == Json(r.value)
    ensures path !in files ==> r == Success(map[])
    ensures path in files && files[path].Json? ==> r == Success(files[path].entries)
  {
    if path !in files then Success(map[])
    else match files[path]
      case Unreadable => Failure(ConfigFileUnreadable(path))
      case Json(entries) => Success(entries)
  }

  /** The entries the load works from: those of the file at the resolved
      path, or none when there is no file there. */
  function ConfigEntries(env: Environ, home: Option<string>, files: map<string, ConfigFile>): Result<map<string, Value>, ConfigError>
  {
    match GetConfigFilePath(env, home)
    case Failure(e) => Failure(e)
    case Success(path) => ReadConfigFile(files, path)
  }

  /** The URL step: BACKPLANE_URL when it is set, else the registry. */
  function ResolveURL(env: Environ, registry: Result<OcmEnvironment, string>): Result<string, ConfigError>
  {
    match GetBackplaneEnv(env, Info.BackplaneURLEnvName)
    case Some(url) => Success(url)
    case None => GetBackplaneURL(registry)
  }

  /** The layers before and after HTTPS_PROXY is bound to proxy-url. */
  function UnboundLayers(entries: map<string, Value>): Layers
  {
    Layers(DefaultSettings(), entries, map[])
  }

  function BoundLayers(entries: map<string, Value>): Layers
  {
    Layers(DefaultSettings(), entries, map[ProxyURLKey := Info.BackplaneProxyEnvName])
  }

  /** The proxy list the selection scans: the nil slice scans as empty. */
  function ProxySetting(env: Environ, entries: map<string, Value>): seq<string>
  {
    match GetStringSlice(BoundLayers(entries), env, ProxyURLKey)
    case Some(xs) => xs
    case None => []
  }

  /** The configuration once the URL is known: the selected proxy and every
      other field read through the bound layers. */
  function SettledConfiguration(env: Environ, entries: map<string, Value>, url: string,
                                probe: (string, string) -> ProbeResult, parses: string -> bool): BackplaneConfiguration
  {
    var layers := BoundLayers(entries);
    var proxyURL := SelectProxy(ProxySetting(env, entries), url + HealthCheckPath, probe, parses);
    var jira := UnmarshalJira(layers, env, JiraConfigForAccessRequestsKey);
    BackplaneConfiguration(
      url,
      if proxyURL == "" then None else Some(proxyURL),
      GetString(layers, env, SessionDirKey),
      GetString(layers, env, AssumeInitialArnKey),
      GetString(layers, env, ProdEnvNameKey),
      GetString(layers, env, PagerDutyKey),
      GetString(layers, env, JiraBaseURLKey),
      GetString(layers, env, JiraTokenViperKey),
      JiraOrEmpty(jira))
  }

  /** The decoded Jira table, or the zero value when decoding failed. */
  function JiraOrEmpty(jira: Option<AccessRequestsJiraConfiguration>): AccessRequestsJiraConfiguration
  {
    if jira.Some? then jira.value else EmptyJiraConfiguration
  }

  /** The reports made before the URL is resolved. */
  function EarlyWarnings(env: Environ, entries: map<string, Value>): seq<Warning>
  {
    WarnIf(ValidateConfig(UnboundLayers(entries), env).Some?, MissingProxy)
    + WarnIf(GetString(BoundLayers(entries), env, URLKey) != "", DeprecatedURLKey)
    + WarnIf(Info.BackplaneURLEnvName in env, DeprecatedURLEnv)
  }

  /** The reports made while the remaining settings are read. */
  function LateWarnings(env: Environ, entries: map<string, Value>): seq<Warning>
  {
    WarnIf(GetString(BoundLayers(entries), env, PagerDutyKey) == "", NoPagerDutyKey)
    + JiraWarnings(UnmarshalJira(BoundLayers(entries), env, JiraConfigForAccessRequestsKey))
  }

  /** The configuration and the reports once the URL is known. */
  function Settle(env: Environ, entries: map<string, Value>, url: string,
                  probe: (string, string) -> ProbeResult, parses: string -> bool): Loaded
  {
    Loaded(SettledConfiguration(env, entries, url, probe, parses), EarlyWarnings(env, entries) + LateWarnings(env, entries))
  }

  /** What one load gives. `env` is the process environment, `home` the
      home directory (None when it cannot be determined), `files` the files
      present, `registry` the active OCM environment or the registry's error,
      `probe` and `parses` the proxy health probe and URI parse. */
  function Load(env: Environ, home: Option<string>, files: map<string, ConfigFile>,
                registry: Result<OcmEnvironment, string>,
                probe: (string, string) -> ProbeResult, parses: string -> bool): Result<Loaded, ConfigError>
  {
    match ConfigEntries(env, home, files)
    case Failure(e) => Failure(e)
    case Success(entries) =>
      match ResolveURL(env, registry)
      case Failure(e) => Failure(e)
      case Success(url) => Success(Settle(env, entries, url, probe, parses))
  }

  /** GetBackplaneConfiguration: the steps in the order the client takes
      them, up to the resolved URL; FillSettings does the rest. */
  method GetBackplaneConfiguration(env: Environ, home: Option<string>, files: map<string, ConfigFile>,
                                   registry: Result<OcmEnvironment, string>,
                                   probe: (string, string) -> ProbeResult, parses: string -> bool)
    returns (res: Result<Loaded, ConfigError>)
    ensures res == Load(env, home, files, registry, probe, parses)
  {
    var defaults := SetDefaults();
    var read := ReadInConfig(env, home, files);
    if read.Failure? {
      return Failure(read.error);
    }
    var fileEntries := read.value;

    var layers := Layers(defaults, fileEntries, map[]);
    var warnings: seq<Warning> := [];
    if ValidateConfig(layers, env).Some? {
      warnings := warnings + [MissingProxy];
    }
    ghost var early := WarnIf(ValidateConfig(UnboundLayers(fileEntries), env).Some?, MissingProxy);
    assert warnings == early;

    // HTTPS_PROXY takes precedence over the file's proxy-url from here on.
    layers := layers.(bindings := layers.bindings[ProxyURLKey := Info.BackplaneProxyEnvName]);
    assert layers == BoundLayers(fileEntries);

    if GetString(layers, env, URLKey) != "" {
      warnings := warnings + [DeprecatedURLKey];
    }
    early := early + WarnIf(GetString(BoundLayers(fileEntries), env, URLKey) != "", DeprecatedURLKey);
    assert warnings == early;

    var resolved, urlWarnings := ResolveBackplaneURL(env, registry);
    if resolved.Failure? {
      return Failure(resolved.error);
    }
    var url := resolved.value;
    warnings := warnings + urlWarnings;
    early := early + WarnIf(Info.BackplaneURLEnvName in env, DeprecatedURLEnv);
    assert warnings == early == EarlyWarnings(env, fileEntries);

    var bpConfig, late := FillSettings(env, layers, fileEntries, url, probe, parses);
    assert Load(env, home, files, registry, probe, parses) == Success(Settle(env, fileEntries, url, probe, parses));
    return Success(Loaded(bpConfig, warnings + late));
  }

  /** The URL part of GetBackplaneConfiguration: BACKPLANE_URL when it is
      set, reported as deprecated, else the active environment's URL. */
  method ResolveBackplaneURL(env: Environ, registry: Result<OcmEnvironment, string>)
    returns (r: Result<string, ConfigError>, warnings: seq<Warning>)
    ensures r == ResolveURL(env, registry)
    ensures warnings == WarnIf(Info.BackplaneURLEnvName in env, DeprecatedURLEnv)
    ensures Info.BackplaneURLEnvName in env ==>
      r == Success(env[Info.BackplaneURLEnvName]) && warnings == [DeprecatedURLEnv]
    ensures Info.BackplaneURLEnvName !in env ==> r == GetBackplaneURL(registry) && warnings == []
  {
    match GetBackplaneEnv(env, Info.BackplaneURLEnvName) {
      case Some(url) =>
        warnings := [DeprecatedURLEnv];
        r := Success(url);
      case None =>
        warnings := [];
        r := GetBackplaneURL(registry);
    }
  }

  /** The defaults GetBackplaneConfiguration registers, one after another. */
  method SetDefaults() returns (defaults: map<string, Value>)
    ensures defaults == DefaultSettings()
  {
    defaults := map[];
    defaults := defaults[ProdEnvNameKey := Text(ProdEnvNameDefaultValue)];
    defaults := defaults[JiraBaseURLKey := Text(JiraBaseURLDefaultValue)];
    defaults := defaults[JiraConfigForAccessRequestsKey := Table(JiraConfigForAccessRequestsDefaultValue())];
  }

  /** The file part of GetBackplaneConfiguration: resolve the path, and
      read the file when one exists there. */
  method ReadInConfig(env: Environ, home: Option<string>, files: map<string, ConfigFile>)
    returns (r: Result<map<string, Value>, ConfigError>)
    ensures r == ConfigEntries(env, home, files)
    ensures GetConfigFilePath(env, home).Failure? ==> r == Failure(GetConfigFilePath(env, home).error)
    ensures GetConfigFilePath(env, home).Success? ==>
      var path := GetConfigFilePath(env, home).value;
      && (path !in files ==> r == Success(map[]))
      && (path in files && files[path].Unreadable? ==> r == Failure(ConfigFileUnreadable(path)))
      && (path in files && files[path].Json? ==> r == Success(files[path].entries))
  {
    var pathResult := GetConfigFilePath(env, home);
    if pathResult.Failure? {
      return Failure(pathResult.error);
    }
    var filePath := pathResult.value;
    r := Success(map[]);
    if filePath in files {
      match files[filePath] {
        case Unreadable =>
          r := Failure(ConfigFileUnreadable(filePath));
        case Json(entries) =>
          r := Success(entries);
      }
    }
  }

  /** The rest of GetBackplaneConfiguration: the proxy, then each setting
      field by field, reporting what is missing or inconsistent. */
  method FillSettings(env: Environ, layers: Layers, entries: map<string, Value>, url: string,
                      probe: (string, string) -> ProbeResult, parses: string -> bool)
    returns (bpConfig: BackplaneConfiguration, warnings: seq<Warning>)
    requires layers == BoundLayers(entries)
    ensures bpConfig == SettledConfiguration(env, entries, url, probe, parses)
    ensures warnings == LateWarnings(env, entries)
  {
    bpConfig := EmptyConfiguration.(url := url);
    warnings := [];

    var proxyInConfigFile := GetStringSlice(layers, env, ProxyURLKey);
    var candidates := if proxyInConfigFile.Some? then proxyInConfigFile.value else [];
    assert candidates == ProxySetting(env, entries);
    var proxyURL: string;
    ghost var probed: seq<string>;
    proxyURL, probed := GetFirstWorkingProxyURL(url, candidates, probe, parses);
    if proxyURL != "" {
      bpConfig := bpConfig.(proxyURL := Some(proxyURL));
    }

    bpConfig := bpConfig.(sessionDirectory := GetString(layers, env, SessionDirKey));
    bpConfig := bpConfig.(assumeInitialArn := GetString(layers, env, AssumeInitialArnKey));

    var pagerDutyAPIKey := GetString(layers, env, PagerDutyKey);
    if pagerDutyAPIKey != "" {
      bpConfig := bpConfig.(pagerDutyAPIKey := pagerDutyAPIKey);
    } else {
      warnings := warnings + [NoPagerDutyKey];
    }

    bpConfig := bpConfig.(prodEnvName := GetString(layers, env, ProdEnvNameKey));
    bpConfig := bpConfig.(jiraBaseURL := GetString(layers, env, JiraBaseURLKey));
    bpConfig := bpConfig.(jiraToken := GetString(layers, env, JiraTokenViperKey));

    assert warnings == WarnIf(GetString(BoundLayers(entries), env, PagerDutyKey) == "", NoPagerDutyKey);
    var jira, jiraWarnings := ApplyJira(layers, env);
    bpConfig := bpConfig.(jiraConfigForAccessRequests := jira);
    warnings := warnings + jiraWarnings;
  }

  /** The Jira part of the load: the decoded table, or the empty one and a
      report when it cannot be decoded; then the consistency check. */
  method ApplyJira(layers: Layers, env: Environ)
    returns (jira: AccessRequestsJiraConfiguration, warnings: seq<Warning>)
    ensures jira == JiraOrEmpty(UnmarshalJira(layers, env, JiraConfigForAccessRequestsKey))
    ensures warnings == JiraWarnings(UnmarshalJira(layers, env, JiraConfigForAccessRequestsKey))
    ensures UnmarshalJira(layers, env, JiraConfigForAccessRequestsKey).None? ==>
      jira == EmptyJiraConfiguration && warnings == [JiraUnmarshalFailed]
    ensures UnmarshalJira(layers, env, JiraConfigForAccessRequestsKey).Some? ==>
      && jira == UnmarshalJira(layers, env, JiraConfigForAccessRequestsKey).value
      && forall w :: w in warnings <==>
           w.JiraNoTransitions? && (w.project == jira.defaultProject || w.project == jira.prodProject) &&
           !HasTransitionsFor(jira, w.project)
  {
    jira := EmptyJiraConfiguration;
    match UnmarshalJira(layers, env, JiraConfigForAccessRequestsKey) {
      case None =>
        warnings := [JiraUnmarshalFailed];
      case Some(c) =>
        jira := c;
        warnings := CheckJiraTransitions(c);
        MissingTransitionWarningsMembers([c.defaultProject, c.prodProject], c);
    }
  }

  // ---------------------------------------------------------------------
  // What a load guarantees

  /** The fatal errors: an unresolvable path, an existing file that cannot
      be read or parsed, and a URL that neither BACKPLANE_URL nor the
      registry gives. Everything else, the failed proxy validation and the
      Jira consistency check included, leaves the load successful. */
  lemma LoadFailsOnlyOnFatalErrors(env: Environ, home: Option<string>, files: map<string, ConfigFile>,
                                   registry: Result<OcmEnvironment, string>,
                                   probe: (string, string) -> ProbeResult, parses: string -> bool)
    ensures var res := Load(env, home, files, registry, probe, parses);
      && (res.Success? <==>
            GetConfigFilePath(env, home).Success? && !FileUnreadable(env, home, files) &&
            (Info.BackplaneURLEnvName in env || GetBackplaneURL(registry).Success?))
      && (GetConfigFilePath(env, home).Failure? ==> res == Failure(GetConfigFilePath(env, home).error))
      && (FileUnreadable(env, home, files) ==>
            res == Failure(ConfigFileUnreadable(GetConfigFilePath(env, home).value)))
      && (GetConfigFilePath(env, home).Success? && !FileUnreadable(env, home, files) &&
          Info.BackplaneURLEnvName !in env && GetBackplaneURL(registry).Failure? ==>
            res == Failure(GetBackplaneURL(registry).error))
  {
  }

  /** The URL is BACKPLANE_URL verbatim when that is set, else the registry's;
      the file's url key never reaches it. */
  lemma LoadURL(env: Environ, home: Option<string>, files: map<string, ConfigFile>,
                registry: Result<OcmEnvironment, string>,
                probe: (string, string) -> ProbeResult, parses: string -> bool)
    requires Load(env, home, files, registry, probe, parses).Success?
    ensures var c := Load(env, home, files, registry, probe, parses).value.config;
      && (Info.BackplaneURLEnvName in env ==> c.url == env[Info.BackplaneURLEnvName])
      && (Info.BackplaneURLEnvName !in env ==> GetBackplaneURL(registry) == Success(c.url))
  {
  }

  /** The proxy is set exactly when the selection over HTTPS_PROXY or else
      the file's proxy-url returns a non-empty candidate, probed against
      the resolved URL. */
  lemma LoadProxy(env: Environ, home: Option<string>, files: map<string, ConfigFile>,
                  registry: Result<OcmEnvironment, string>,
                  probe: (string, string) -> ProbeResult, parses: string -> bool)
    requires Load(env, home, files, registry, probe, parses).Success?
    ensures var c := Load(env, home, files, registry, probe, parses).value.config;
      var chosen := SelectProxy(ProxyCandidates(env, FileEntries(env, home, files)), c.url + HealthCheckPath, probe, parses);
      c.proxyURL == if chosen == "" then None else Some(chosen)
  {
    var entries := FileEntries(env, home, files);
    BoundLayersReadStrings(entries, env);
    BoundLayersReadDefaulted(entries, env);
  }

  /** Every other field: the file's string, else the default where there is
      one, else "". */
  lemma LoadSettings(env: Environ, home: Option<string>, files: map<string, ConfigFile>,
                     registry: Result<OcmEnvironment, string>,
                     probe: (string, string) -> ProbeResult, parses: string -> bool)
    requires Load(env, home, files, registry, probe, parses).Success?
    ensures var c := Load(env, home, files, registry, probe, parses).value.config;
      var entries := FileEntries(env, home, files);
      && c.sessionDirectory == TextOf(entries, SessionDirKey)
      && c.assumeInitialArn == TextOf(entries, AssumeInitialArnKey)
      && c.pagerDutyAPIKey == TextOf(entries, PagerDutyKey)
      && c.jiraToken == TextOf(entries, JiraTokenViperKey)
      && c.prodEnvName == (if ProdEnvNameKey in entries then TextOf(entries, ProdEnvNameKey) else ProdEnvNameDefaultValue)
      && c.jiraBaseURL == (if JiraBaseURLKey in entries then TextOf(entries, JiraBaseURLKey) else JiraBaseURLDefaultValue)
      && c.jiraConfigForAccessRequests ==
           (if JiraSetting(entries).Some? then JiraSetting(entries).value else EmptyJiraConfiguration)
  {
    BoundLayersReadStrings(FileEntries(env, home, files), env);
    BoundLayersReadDefaulted(FileEntries(env, home, files), env);
  }

  /** A successful load settles the file's entries at the resolved URL. */
  lemma LoadSettlesFileEntries(env: Environ, home: Option<string>, files: map<string, ConfigFile>,
                               registry: Result<OcmEnvironment, string>,
                               probe: (string, string) -> ProbeResult, parses: string -> bool)
    requires Load(env, home, files, registry, probe, parses).Success?
    ensures var loaded := Load(env, home, files, registry, probe, parses).value;
      loaded == Settle(env, FileEntries(env, home, files), loaded.config.url, probe, parses)
  {
  }

  /** The reports made before the URL is resolved, read off the entries. */
  lemma EarlyWarningsFromEntries(env: Environ, entries: map<string, Value>)
    ensures EarlyWarnings(env, entries) ==
      WarnIf(!ProxyListed(entries) && Getenv(env, Info.BackplaneProxyEnvName) == "", MissingProxy)
      + WarnIf(TextOf(entries, URLKey) != "", DeprecatedURLKey)
      + WarnIf(Info.BackplaneURLEnvName in env, DeprecatedURLEnv)
  {
    assert ProxyURLKey !in DefaultSettings();
    BoundLayersReadStrings(entries, env);
    BoundLayersReadDefaulted(entries, env);
  }

  /** The reports made while settling, read off the entries. */
  lemma LateWarningsFromEntries(env: Environ, entries: map<string, Value>)
    ensures LateWarnings(env, entries) ==
      WarnIf(TextOf(entries, PagerDutyKey) == "", NoPagerDutyKey) + JiraWarnings(JiraSetting(entries))
  {
    BoundLayersReadStrings(entries, env);
    BoundLayersReadDefaulted(entries, env);
  }

  /** The reports made around settling are those the entries call for. */
  lemma SettleReports(env: Environ, entries: map<string, Value>, url: string,
                      probe: (string, string) -> ProbeResult, parses: string -> bool)
    ensures Settle(env, entries, url, probe, parses).warnings == LoadWarnings(env, entries)
  {
    EarlyWarningsFromEntries(env, entries);
    LateWarningsFromEntries(env, entries);
    var a := WarnIf(!ProxyListed(entries) && Getenv(env, Info.BackplaneProxyEnvName) == "", MissingProxy);
    var b := WarnIf(TextOf(entries, URLKey) != "", DeprecatedURLKey);
    var c := WarnIf(Info.BackplaneURLEnvName in env, DeprecatedURLEnv);
    var d := WarnIf(TextOf(entries, PagerDutyKey) == "", NoPagerDutyKey);
    var e := JiraWarnings(JiraSetting(entries));
    assert (a + b + c) + (d + e) == a + b + c + d + e;
  }

  /** The reports of a successful load, in order: the missing proxy setting,
      the deprecated url key, BACKPLANE_URL, the missing PagerDuty key, and
      the Jira decoding or consistency problems. */
  lemma LoadReports(env: Environ, home: Option<string>, files: map<string, ConfigFile>,
                    registry: Result<OcmEnvironment, string>,
                    probe: (string, string) -> ProbeResult, parses: string -> bool)
    requires Load(env, home, files, registry, probe, parses).Success?
    ensures Load(env, home, files, registry, probe, parses).value.warnings == LoadWarnings(env, FileEntries(env, home, files))
  {
    LoadSettlesFileEntries(env, home, files, registry, probe, parses);
    var url := Load(env, home, files, registry, probe, parses).value.config.url;
    SettleReports(env, FileEntries(env, home, files), url, probe, parses);
  }

  /** With no configuration file the documented defaults apply. */
  lemma LoadWithoutFileUsesDefaults(env: Environ, home: Option<string>, files: map<string, ConfigFile>,
                                    registry: Result<OcmEnvironment, string>,
                                    probe: (string, string) -> ProbeResult, parses: string -> bool)
    requires Load(env, home, files, registry, probe, parses).Success?
    requires GetConfigFilePath(env, home).value !in files
    ensures var c := Load(env, home, files, registry, probe, parses).value.config;
      && c.prodEnvName == "production"
      && c.jiraBaseURL == "https://issues.redhat.com"
      && c.jiraConfigForAccessRequests == JiraConfigForAccessRequestsDefaultValue()
      && c.sessionDirectory == "" && c.assumeInitialArn == "" && c.pagerDutyAPIKey == "" && c.jiraToken == ""
  {
    assert FileEntries(env, home, files) == map[];
    LoadSettings(env, home, files, registry, probe, parses);
  }

  /** With no configuration file the missing PagerDuty key is reported, and
      the built-in Jira settings raise no report. */
  lemma LoadWithoutFileReports(env: Environ, home: Option<string>, files: map<string, ConfigFile>,
                               registry: Result<OcmEnvironment, string>,
                               probe: (string, string) -> ProbeResult, parses: string -> bool)
    requires Load(env, home, files, registry, probe, parses).Success?
    requires GetConfigFilePath(env, home).value !in files
    ensures var w := Load(env, home, files, registry, probe, parses).value.warnings;
      && NoPagerDutyKey in w
      && DeprecatedURLKey !in w
      && JiraUnmarshalFailed !in w
      && forall p :: JiraNoTransitions(p) !in w
  {
    assert FileEntries(env, home, files) == map[];
    LoadReports(env, home, files, registry, probe, parses);
    NoFileWarnings(env);
  }

  /** The reports of a load from no entries at all. */
  lemma NoFileWarnings(env: Environ)
    ensures var w := LoadWarnings(env, map[]);
      && NoPagerDutyKey in w
      && DeprecatedURLKey !in w
      && JiraUnmarshalFailed !in w
      && forall p :: JiraNoTransitions(p) !in w
  {
    LoadWarningsMembers(env, map[]);
    LoadWarningsJiraProjects(env, map[]);
  }
}

=== FILE: info.dfy ===
/** Build and installation facts about the command-line client: the
    environment variables and default paths it uses, the build version it
    reports and the tagged README link. */
module Info {
  import opened Wrappers

  // Environment variables
  const BackplaneURLEnvName := "BACKPLANE_URL"
  const BackplaneProxyEnvName := "HTTPS_PROXY"
  const BackplaneConfigPathEnvName := "BACKPLANE_CONFIG"

  // Configuration file location, relative to the home directory
  const BackplaneConfigDefaultFilePath := ".config/backplane"
  const BackplaneConfigDefaultFileName := "config.json"

  // Session workspaces live in this directory under the home directory
  const BackplaneDefaultSessionDirectory := "backplane"

  /** `r` is `s` with its whole run of leading 'v' characters removed:
      a suffix of `s`, everything cut off is a 'v', and `r` does not start
      with one. */
  predicate IsVTrimmed(s: string, r: string)
  {
    && |r| <= |s|
    && r == s[|s| - |r|..]
    && (forall i :: 0 <= i < |s| - |r| ==> s[i] == 'v')
    && (r == [] || r[0] != 'v')
  }

  /** strings.TrimLeft(s, "v"): "v" is a cutset, so every leading 'v' goes. */
  function TrimLeftV(s: string): (r: string)
    ensures IsVTrimmed(s, r)
  {
    if |s| > 0 && s[0] == 'v' then
      var r := TrimLeftV(s[1..]);
      assert s[1..][|s| - 1 - |r|..] == s[|s| - |r|..];
      assert forall i :: 1 <= i < |s| - |r| ==> s[i] == s[1..][i - 1];
      r
    else s
  }

  /** There is only one way to trim: IsVTrimmed determines its result. */
  lemma {:induction false} VTrimmedUnique(s: string, r1: string, r2: string)
    requires IsVTrimmed(s, r1) && IsVTrimmed(s, r2)
    ensures r1 == r2
  {
  }

  /** The version the client reports. `version` is the value stamped in at
      release time ("" when none was); `mainVersion` is the main module's
      version from the Go build information, None when that is unavailable. */
  function GetBuildVersion(version: string, mainVersion: Option<string>): (r: string)
    ensures version != "" ==> r == version
    ensures version == "" && mainVersion.Some? ==> IsVTrimmed(mainVersion.value, r)
    ensures version == "" && mainVersion.None? ==> r == "unknown"
  {
    if |version| > 0 then version
    else match mainVersion
      case Some(v) => TrimLeftV(v)
      case None => "unknown"
  }

  /** The cutset trims any number of leading 'v's, not just one. */
  lemma BuildVersionTrimsEveryLeadingV(n: nat, rest: string)
    requires rest == [] || rest[0] != 'v'
    ensures GetBuildVersion("", Some(seq(n, _ => 'v') + rest)) == rest
  {
    var s := seq(n, _ => 'v') + rest;
    assert s[|s| - |rest|..] == rest;
    assert IsVTrimmed(s, rest);
    VTrimmedUnique(s, rest, GetBuildVersion("", Some(s)));
  }

  /** fmt.Sprintf for a template whose one verb is %s: the first "%s" is
      replaced by `arg` and everything else is copied. */
  function Sprintf(template: string, arg: string): string
  {
    if |template| < 2 then template
    else if template[0] == '%' && template[1] == 's' then arg + template[2..]
    else [template[0]] + Sprintf(template[1..], arg)
  }

  lemma {:induction false} SprintfSubstitutes(pre: string, post: string, arg: string)
    requires '%' !in pre
    ensures Sprintf(pre + "%s" + post, arg) == pre + arg + post
  {
    var t := pre + "%s" + post;
    if pre == [] {
      assert t[..2] == "%s" && t[2..] == post;
    } else {
      var t' := pre[1..] + "%s" + post;
      assert t[0] == pre[0] && t[0] != '%';
      assert t[1..] == t';
      calc {
        Sprintf(t, arg);
        [pre[0]] + Sprintf(t', arg);
        { SprintfSubstitutes(pre[1..], post, arg); }
        [pre[0]] + (pre[1..] + arg + post);
        pre + arg + post;
      }
    }
  }

  /** The tagged README link template, whose one verb %s takes the
      version: the repository's blob path, the verb, then the file name. */
  const UpstreamRepositoryURL := "https://github.com/" + "openshift/" + "backplane-cli"
  const UpstreamREADMEBlobPrefix := UpstreamRepositoryURL + "/-/blob/"
  const UpstreamREADMEFileSuffix := "/README.md"
  const UpstreamREADMETemplate := UpstreamREADMEBlobPrefix + "%s" + UpstreamREADMEFileSuffix

  lemma UpstreamREADMEBlobPrefixHasNoVerb()
    ensures '%' !in UpstreamREADMEBlobPrefix
  {
    assert '%' !in "https://github.com/";
    assert '%' !in "openshift/";
    assert '%' !in "backplane-cli";
    assert '%' !in "/-/blob/";
  }

  /** The README link for the stamped `version`: the version sits between
      the blob prefix and the file name. */
  function UpstreamREADMETagged(version: string): (r: string)
    ensures r == UpstreamREADMEBlobPrefix + version + UpstreamREADMEFileSuffix
  {
    UpstreamREADMEBlobPrefixHasNoVerb();
    SprintfSubstitutes(UpstreamREADMEBlobPrefix, UpstreamREADMEFileSuffix, version);
    Sprintf(UpstreamREADMETemplate, version)
  }
}

=== FILE: platform.dfy ===
/** The parts of Go's os and path/filepath packages that the configuration
    code relies on, over an explicit snapshot of the process environment and
    slash-separated paths. */
module Platform {
  import opened Wrappers

  /** A snapshot of the process environment: a variable is set exactly when
      its name is a key (an empty value is still "set"). */
  type Environ = map<string, string>

  /** os.LookupEnv: the value and whether the variable is set at all. */
  function LookupEnv(env: Environ, name: string): (r: Option<string>)
    ensures r.Some? <==> name in env
    ensures r.Some? ==> r.value == env[name]
  {
    if name in env then Some(env[name]) else None
  }

  /** os.Getenv: the value, or "" when the variable is not set. */
  function Getenv(env: Environ, name: string): (r: string)
    ensures LookupEnv(env, name).Some? ==> r == LookupEnv(env, name).value
    ensures LookupEnv(env, name).None? ==> r == ""
    ensures r != "" ==> name in env && env[name] == r
  {
    if name in env then env[name] else ""
  }

  const Separator: char := '/'

  /** The non-empty elements of `elems`, in order. */
  function NonEmpty(elems: seq<string>): (r: seq<string>)
    ensures forall i :: 0 <= i < |r| ==> r[i] != ""
    ensures r == [] <==> forall i :: 0 <= i < |elems| ==> elems[i] == ""
  {
    if elems == [] then []
    else (if elems[0] == "" then [] else [elems[0]]) + NonEmpty(elems[1..])
  }

  /** The parts with one separator between each two of them. */
  function JoinWithSeparator(parts: seq<string>): (r: string)
    ensures |parts| > 0 ==> |parts[0]| <= |r| && r[..|parts[0]|] == parts[0]
  {
    if |parts| == 0 then ""
    else if |parts| == 1 then parts[0]
    else parts[0] + [Separator] + JoinWithSeparator(parts[1..])
  }

  /** filepath.Join on clean elements: empty elements are ignored and the
      rest are joined with the separator. */
  function Join(elems: seq<string>): (r: string)
    ensures r == "" <==> forall i :: 0 <= i < |elems| ==> elems[i] == ""
  {
    JoinWithSeparator(NonEmpty(elems))
  }

  /** The index of the last separator in `path`, if there is one. */
  function LastSeparator(path: string): (r: Option<nat>)
    ensures r.Some? ==> r.value < |path| && path[r.value] == Separator
    ensures r.Some? ==> forall j :: r.value < j < |path| ==> path[j] != Separator
    ensures r.None? ==> forall j :: 0 <= j < |path| ==> path[j] != Separator
  {
    if path == [] then None
    else if path[|path| - 1] == Separator then Some(|path| - 1)
    else LastSeparator(path[..|path| - 1])
  }

  /** filepath.Dir on a clean path: everything before the last separator;
      "/" when that separator is the first character; "." when there is none. */
  function Dir(path: string): (r: string)
    ensures (forall j :: 0 <= j < |path| ==> path[j] != Separator) ==> r == "."
    ensures LastSeparator(path) == Some(0) ==> r == "/"
    ensures LastSeparator(path).Some? && LastSeparator(path).value > 0 ==> r == path[..LastSeparator(path).value]
    ensures r != "." && r != "/" ==>
      |r| < |path| && r == path[..|r|] && path[|r|] == Separator &&
      forall j :: |r| < j < |path| ==> path[j] != Separator
  {
    match LastSeparator(path)
    case None => "."
    case Some(i) => if i == 0 then "/" else path[..i]
  }

  /** Joining two non-empty elements puts exactly one separator between them. */
  lemma JoinTwo(a: string, b: string)
    requires a != "" && b != ""
    ensures Join([a, b]) == a + [Separator] + b
  {
    assert [a, b][1..] == [b];
    assert NonEmpty([b]) == [b];
    assert NonEmpty([a, b]) == [a, b];
    assert JoinWithSeparator([a, b]) == a + [Separator] + JoinWithSeparator([b]);
  }

  /** Filtering distributes over concatenation. */
  lemma {:induction false} NonEmptyAppend(a: seq<string>, b: seq<string>)
    ensures NonEmpty(a + b) == NonEmpty(a) + NonEmpty(b)
  {
    if a == [] {
      assert a + b == b;
    } else {
      assert (a + b)[0] == a[0] && (a + b)[1..] == a[1..] + b;
      NonEmptyAppend(a[1..], b);
    }
  }

  /** An empty element anywhere is ignored by the join. */
  lemma JoinIgnoresEmpty(a: seq<string>, b: seq<string>)
    ensures Join(a + [""] + b) == Join(a + b)
  {
    var rest := [""] + b;
    assert rest[0] == "" && rest[1..] == b;
    assert NonEmpty(rest) == NonEmpty(b);
    NonEmptyAppend(a, rest);
    NonEmptyAppend(a, b);
    assert a + [""] + b == a + rest;
    assert NonEmpty(a + [""] + b) == NonEmpty(a + b);
  }

  /** An empty leading element is dropped, whatever follows it. */
  lemma JoinSkipsEmptyFirst(rest: seq<string>)
    ensures Join([""] + rest) == Join(rest)
  {
    var elems := [""] + rest;
    assert elems[0] == "" && elems[1..] == rest;
    assert NonEmpty(elems) == NonEmpty(rest);
  }

  lemma JoinThree(a: string, b: string, c: string)
    requires a != "" && b != "" && c != ""
    ensures Join([a, b, c]) == a + [Separator] + b + [Separator] + c
  {
    assert [a, b, c][1..] == [b, c];
    assert [b, c][1..] == [c];
    assert NonEmpty([c]) == [c];
    assert NonEmpty([b, c]) == [b, c];
    assert NonEmpty([a, b, c]) == [a, b, c];
    assert JoinWithSeparator([b, c]) == b + [Separator] + JoinWithSeparator([c]);
    assert JoinWithSeparator([a, b, c]) == a + [Separator] + JoinWithSeparator([b, c]);
  }

  /** Dir undoes a join with a last element that holds no separator. */
  lemma {:induction false} DirOfJoin(dir: string, name: string)
    requires dir != "" && dir[|dir| - 1] != Separator
    requires Separator !in name
    ensures Dir(dir + [Separator] + name) == dir
  {
    var path := dir + [Separator] + name;
    var last := LastSeparator(path);
    assert path[|dir|] == Separator;
    assert last.Some?;
    assert last.value == |dir|;
    assert path[..|dir|] == dir;
  }
}

=== FILE: proxy.dfy ===
/** Choosing the egress proxy: the candidates are tried in list order, each
    with one health probe of the backplane API through it, and the first one
    that answers 200 wins; when none does, the first candidate is kept. */
module ProxySelection {
  import opened Wrappers

  /** What one health probe through a proxy gives back: a transport failure
      (connection error, the 5-second timeout) or a response status code. */
  datatype ProbeResult = TransportError | Status(code: int)

  const StatusOK := 200

  /** Appended to the backplane URL to form the probe target. */
  const HealthCheckPath := "/healthz"

  /** A candidate passes when it parses as a request URI and the GET of
      `target` through it answers 200. `parses` stands for url.ParseRequestURI
      succeeding; `probe(p, target)` for the HTTP round trip through proxy p. */
  predicate Passes(p: string, target: string, probe: (string, string) -> ProbeResult, parses: string -> bool)
  {
    parses(p) && probe(p, target) == Status(StatusOK)
  }

  /** The index of the first passing candidate at or after `from`. */
  function FirstPassingFrom(s: seq<string>, target: string, probe: (string, string) -> ProbeResult,
                            parses: string -> bool, from: nat): (r: Option<nat>)
    requires from <= |s|
    ensures r.Some? ==> from <= r.value < |s| && Passes(s[r.value], target, probe, parses)
    ensures r.Some? ==> forall j :: from <= j < r.value ==> !Passes(s[j], target, probe, parses)
    ensures r.None? ==> forall j :: from <= j < |s| ==> !Passes(s[j], target, probe, parses)
    decreases |s| - from
  {
    if from == |s| then None
    else if Passes(s[from], target, probe, parses) then Some(from)
    else FirstPassingFrom(s, target, probe, parses, from + 1)
  }

  function FirstPassing(s: seq<string>, target: string, probe: (string, string) -> ProbeResult,
                        parses: string -> bool): Option<nat>
  {
    FirstPassingFrom(s, target, probe, parses, 0)
  }

  /** The proxy the selection settles on: the first passing candidate; else
      the first candidate, passing or not; else "" for an empty list. */
  function SelectProxy(s: seq<string>, target: string, probe: (string, string) -> ProbeResult,
                       parses: string -> bool): (r: string)
    ensures r in s || (s == [] && r == "")
  {
    match FirstPassing(s, target, probe, parses)
    case Some(i) => s[i]
    case None => if |s| > 0 then s[0] else ""
  }

  /** The candidates of `xs` that parse, in order. */
  function Parseable(xs: seq<string>, parses: string -> bool): seq<string>
  {
    if xs == [] then []
    else Parseable(xs[..|xs| - 1], parses) + (if parses(xs[|xs| - 1]) then [xs[|xs| - 1]] else [])
  }

  /** The candidates a probe is sent through, in order: every parseable
      candidate up to and including the winner, or every parseable candidate
      when nothing passes. */
  function Probed(s: seq<string>, target: string, probe: (string, string) -> ProbeResult,
                  parses: string -> bool): seq<string>
  {
    match FirstPassing(s, target, probe, parses)
    case Some(i) => Parseable(s[..i + 1], parses)
    case None => Parseable(s, parses)
  }

  /** getFirstWorkingProxyURL: `url` is the backplane URL, `s` the
      candidates; `probed` records the proxies a request went through. */
  method GetFirstWorkingProxyURL(url: string, s: seq<string>, probe: (string, string) -> ProbeResult,
                                 parses: string -> bool)
    returns (r: string, ghost probed: seq<string>)
    ensures r == SelectProxy(s, url + HealthCheckPath, probe, parses)
    ensures probed == Probed(s, url + HealthCheckPath, probe, parses)
  {
    var bpURL := url + HealthCheckPath;
    probed := [];
    for i := 0 to |s|
      invariant forall j :: 0 <= j < i ==> !Passes(s[j], bpURL, probe, parses)
      invariant probed == Parseable(s[..i], parses)
    {
      var p := s[i];
      assert s[..i + 1][..i] == s[..i];
      if parses(p) {
        probed := probed + [p];
        var resp := probe(p, bpURL);
        if resp.Status? && resp.code == StatusOK {
          FirstPassingIsFirst(s, bpURL, probe, parses, i);
          return p, probed;
        }
      }
    }
    assert s[..|s|] == s;
    if |s| > 0 {
      return s[0], probed;
    }
    return "", probed;
  }

  /** The passing candidate that no earlier candidate beats is the one found. */
  lemma FirstPassingIsFirst(s: seq<string>, target: string, probe: (string, string) -> ProbeResult,
                            parses: string -> bool, i: nat)
    requires i < |s| && Passes(s[i], target, probe, parses)
    requires forall j :: 0 <= j < i ==> !Passes(s[j], target, probe, parses)
    ensures FirstPassing(s, target, probe, parses) == Some(i)
  {
  }

  /** First healthy wins, whichever later candidates would also pass, and no
      candidate after it is probed. */
  lemma SelectProxyFirstHealthy(s: seq<string>, target: string, probe: (string, string) -> ProbeResult,
                                parses: string -> bool, i: nat)
    requires i < |s| && Passes(s[i], target, probe, parses)
    requires forall j :: 0 <= j < i ==> !Passes(s[j], target, probe, parses)
    ensures SelectProxy(s, target, probe, parses) == s[i]
    ensures Probed(s, target, probe, parses) == Parseable(s[..i + 1], parses)
  {
    FirstPassingIsFirst(s, target, probe, parses, i);
  }

  /** When no candidate passes, the first one is kept unchanged, even one
      that does not parse. */
  lemma SelectProxyFallback(s: seq<string>, target: string, probe: (string, string) -> ProbeResult,
                            parses: string -> bool)
    requires |s| > 0
    requires forall j :: 0 <= j < |s| ==> !Passes(s[j], target, probe, parses)
    ensures SelectProxy(s, target, probe, parses) == s[0]
    ensures Probed(s, target, probe, parses) == Parseable(s, parses)
  {
  }

  /** No candidates: no proxy and no probe. */
  lemma SelectProxyEmpty(target: string, probe: (string, string) -> ProbeResult, parses: string -> bool)
    ensures SelectProxy([], target, probe, parses) == ""
    ensures Probed([], target, probe, parses) == []
  {
  }

  /** Parseable keeps exactly the parseable candidates. */
  lemma {:induction false} ParseableMembers(xs: seq<string>, parses: string -> bool)
    ensures forall p :: p in Parseable(xs, parses) <==> p in xs && parses(p)
  {
    if xs != [] {
      var init := xs[..|xs| - 1];
      ParseableMembers(init, parses);
      assert xs == init + [xs[|xs| - 1]];
    }
  }

  /** A candidate that does not parse is never probed; every probe goes
      through a listed candidate. */
  lemma ProbedAreParseableCandidates(s: seq<string>, target: string, probe: (string, string) -> ProbeResult,
                                     parses: string -> bool)
    ensures forall p :: p in Probed(s, target, probe, parses) ==> p in s && parses(p)
  {
    match FirstPassing(s, target, probe, parses)
    case Some(i) =>
      ParseableMembers(s[..i + 1], parses);
      assert forall p :: p in s[..i + 1] ==> p in s;
    case None =>
      ParseableMembers(s, parses);
  }

  /** The result depends only on the probes up to the winner: probes of
      later candidates may answer anything. */
  lemma SelectProxyIgnoresLaterProbes(s: seq<string>, target: string,
                                      probe1: (string, string) -> ProbeResult, probe2: (string, string) -> ProbeResult,
                                      parses: string -> bool, i: nat)
    requires i < |s| && Passes(s[i], target, probe1, parses)
    requires forall j :: 0 <= j < i ==> !Passes(s[j], target, probe1, parses)
    requires forall j :: 0 <= j <= i ==> probe1(s[j], target) == probe2(s[j], target)
    ensures SelectProxy(s, target, probe2, parses) == SelectProxy(s, target, probe1, parses) == s[i]
  {
    assert forall j :: 0 <= j <= i ==> Passes(s[j], target, probe1, parses) == Passes(s[j], target, probe2, parses);
    FirstPassingIsFirst(s, target, probe1, parses, i);
    FirstPassingIsFirst(s, target, probe2, parses, i);
  }
}

=== FILE: session.dfy ===
/** Shell completion for the session-alias argument of the `session`
    command: the names of the session workspaces under the home directory
    that start with what has been typed so far. */
module SessionCompletion {
  import opened Wrappers
  import opened Platform
  import Info

  /** One entry of a directory listing, as os.ReadDir reports it. */
  datatype DirEntry = DirEntry(name: string, isDir: bool)

  /** cobra.ShellCompDirectiveNoFileComp: the shell must not fall back to
      completing file names. */
  const ShellCompDirectiveNoFileComp := 4

  /** The directory the completion lists: $HOME joined with "backplane". */
  function SessionDirectory(home: string): string
  {
    Join([home, Info.BackplaneDefaultSessionDirectory])
  }

  /** An entry is offered when it is a directory whose name starts with the
      typed text. */
  predicate Offered(e: DirEntry, toComplete: string)
  {
    e.isDir && toComplete <= e.name
  }

  /** The names of the offered entries, in listing order. */
  function OfferedNames(entries: seq<DirEntry>, toComplete: string): seq<string>
  {
    if entries == [] then []
    else
      var last := entries[|entries| - 1];
      OfferedNames(entries[..|entries| - 1], toComplete) + (if Offered(last, toComplete) then [last.name] else [])
  }

  /** The positions in the listing of the offered entries, in order. */
  function OfferedPositions(entries: seq<DirEntry>, toComplete: string): seq<nat>
  {
    if entries == [] then []
    else
      var n := |entries| - 1;
      OfferedPositions(entries[..n], toComplete) + (if Offered(entries[n], toComplete) then [n] else [])
  }

  /** The completion function. `readDir` stands for os.ReadDir: None when the
      directory cannot be read. */
  method CompleteSessionAlias(env: Environ, readDir: string -> Option<seq<DirEntry>>, toComplete: string)
    returns (validEnvs: seq<string>, directive: int)
    ensures directive == ShellCompDirectiveNoFileComp
    ensures readDir(SessionDirectory(Getenv(env, "HOME"))).None? ==> validEnvs == []
    ensures readDir(SessionDirectory(Getenv(env, "HOME"))).Some? ==>
      validEnvs == OfferedNames(readDir(SessionDirectory(Getenv(env, "HOME"))).value, toComplete)
  {
    validEnvs := [];
    var files := readDir(SessionDirectory(Getenv(env, "HOME")));
    if files.None? {
      return validEnvs, ShellCompDirectiveNoFileComp;
    }
    var entries := files.value;
    for i := 0 to |entries|
      invariant validEnvs == OfferedNames(entries[..i], toComplete)
    {
      var f := entries[i];
      assert entries[..i + 1][..i] == entries[..i];
      if f.isDir && toComplete <= f.name {
        validEnvs := validEnvs + [f.name];
      }
    }
    assert entries[..|entries|] == entries;
    return validEnvs, ShellCompDirectiveNoFileComp;
  }

  /** Order and soundness: the k-th offered name is the name of an offered
      directory entry, and these entries appear in the listing in the same
      order as the names. */
  lemma {:induction false} OfferedNamesKeepListingOrder(entries: seq<DirEntry>, toComplete: string)
    ensures |OfferedPositions(entries, toComplete)| == |OfferedNames(entries, toComplete)|
    ensures forall k :: 0 <= k < |OfferedPositions(entries, toComplete)| ==>
      OfferedPositions(entries, toComplete)[k] < |entries| &&
      Offered(entries[OfferedPositions(entries, toComplete)[k]], toComplete) &&
      entries[OfferedPositions(entries, toComplete)[k]].name == OfferedNames(entries, toComplete)[k]
    ensures forall k, l :: 0 <= k < l < |OfferedPositions(entries, toComplete)| ==>
      OfferedPositions(entries, toComplete)[k] < OfferedPositions(entries, toComplete)[l]
  {
    if entries != [] {
      var n := |entries| - 1;
      var init := entries[..n];
      OfferedNamesKeepListingOrder(init, toComplete);
      var pos, pos0 := OfferedPositions(entries, toComplete), OfferedPositions(init, toComplete);
      assert forall k :: 0 <= k < |pos0| ==> pos[k] == pos0[k] && pos0[k] < n && entries[pos0[k]] == init[pos0[k]];
    }
  }

  /** Completeness: every offered directory entry's name is returned. */
  lemma {:induction false} OfferedNamesComplete(entries: seq<DirEntry>, toComplete: string)
    ensures forall i :: 0 <= i < |entries| && Offered(entries[i], toComplete) ==>
      entries[i].name in OfferedNames(entries, toComplete)
  {
    if entries != [] {
      var n := |entries| - 1;
      var init := entries[..n];
      OfferedNamesComplete(init, toComplete);
      assert forall i :: 0 <= i < n ==> entries[i] == init[i];
    }
  }

  /** Soundness by name: a returned name belongs to a directory entry whose
      name starts with the typed text; files are never offered. */
  lemma OfferedNamesSound(entries: seq<DirEntry>, toComplete: string, name: string)
    requires name in OfferedNames(entries, toComplete)
    ensures exists i :: 0 <= i < |entries| && entries[i].name == name && entries[i].isDir && toComplete <= name
  {
    OfferedNamesKeepListingOrder(entries, toComplete);
    var names := OfferedNames(entries, toComplete);
    var k :| 0 <= k < |names| && names[k] == name;
    var i := OfferedPositions(entries, toComplete)[k];
    assert entries[i].name == name;
  }

  /** The names of all subdirectories, in listing order. */
  function DirectoryNames(entries: seq<DirEntry>): seq<string>
  {
    if entries == [] then []
    else
      var last := entries[|entries| - 1];
      DirectoryNames(entries[..|entries| - 1]) + (if last.isDir then [last.name] else [])
  }

  /** With nothing typed, every subdirectory is offered. */
  lemma {:induction false} EmptyPrefixOffersEveryDirectory(entries: seq<DirEntry>)
    ensures OfferedNames(entries, "") == DirectoryNames(entries)
  {
    if entries != [] {
      EmptyPrefixOffersEveryDirectory(entries[..|entries| - 1]);
    }
  }

  /** The scanned directory is "backplane" under a set $HOME, and the
      relative "backplane" when $HOME is empty or unset. */
  lemma SessionDirectoryUnderHome(home: string)
    ensures home != "" ==> SessionDirectory(home) == home + "/backplane"
    ensures home == "" ==> SessionDirectory(home) == "backplane"
  {
    if home != "" {
      JoinTwo(home, Info.BackplaneDefaultSessionDirectory);
    } else {
      var d := Info.BackplaneDefaultSessionDirectory;
      assert [home, d] == [""] + [d];
      JoinSkipsEmptyFirst([d]);
      assert NonEmpty([d]) == [d];
    }
  }
}

=== FILE: wrappers.dfy ===
/** Optional values and results with an error, as Go expresses them with
    (value, ok) and (value, err) pairs. */
module Wrappers {

  datatype Option<+T> = None | Some(value: T)

  datatype Result<+T, +E> = Success(value: T) | Failure(error: E)
}
